=== FILE: README.md ===
# YouTube transcript helpers — a verified model

The application takes a YouTube link, extracts the video id, fetches the
video's captions, joins them into one transcript and hands that transcript to
a hosted language model. Only two steps hold logic that can be stated and
checked, and both live in `supporting_functions.py`:

- **Video-id extraction** (`extract_video_id`). It runs the regular-expression
  search `(?:v=|/)([0-9A-Za-z_-]{11}).*` over the URL and returns group 1.
  If nothing matches, it reports "Invalid YouTube URL. Please enter a valid
  video link." and returns `None`. The model is module `VideoIds` in
  `video_id.dfy`. Two descriptions sit side by side:
  - a declarative one: `IsIdChar` is the character class `[0-9A-Za-z_-]`, and
    `MatchAt`, `GroupStart`, `FirstMatch` and `NoMatch` state, as quantified
    predicates, what the pattern means at one start position;
  - the search itself, as a scan over start positions: `IdCharsAt`, `TryAt`,
    `SearchFrom`, `FindVideoId` and `ExtractVideoId`.

  The contracts and lemmas connect the two descriptions.
- **Transcript assembly** (`get_transcript`). It calls the transcript service
  and joins the texts of the returned fragments with single spaces. If the
  call raises, it reports "Error fetching video: " plus the exception text and
  returns `None`. The model is module `Transcripts` in `transcript.dfy`. The
  service is a function parameter, `fetch(video_id, [language])`. It returns
  either the fragments in caption order or the description of the exception.

The Streamlit error channel is modelled explicitly. Both operations return a
`Reported` value (module `Outcomes`, `outcomes.dfy`). It holds the Python
return value (`Some`/`None`) and the list of error messages the call reported.
This lets the contracts say "returns nothing and reports exactly one error".

A URL that contains an 11-character id after `v=` or `/` does not always
yield that id: the code returns the group of the leftmost start where the
pattern matches, and that start can be an unrelated path segment of 11 or more
id characters. `QueryFormFirstMatch` and `PathFormFirstMatch` state the exact
condition under which the match at a given `v=` or `/` is the one returned;
`QueryFormId` and `PathFormId` give a sufficient condition for an embedded id
to be returned. `PathSegmentShadowsQueryId` shows the
leftmost rule winning on a real link shape: `.../attribution_link?u=/watch?v=<id>`
yields `attribution`.

## Model

| member | source | states |
|---|---|---|
| `VideoIds.IdCharsAt` | supporting_functions.py:18 | the quantifier `[0-9A-Za-z_-]{n}` succeeds at `j` exactly when `n` characters fit from `j` and every one is in the class |
| `VideoIds.TryAt` | supporting_functions.py:18 | the pattern tried at one start succeeds exactly when `v=` or `/` stands there followed by 11 id characters; the group then starts after `v=` if that alternative matched, else after `/` |
| `VideoIds.SearchFrom` | supporting_functions.py:18 | the search returns the leftmost start at or after `i` that matches, with its group start; it returns nothing exactly when no start from `i` up to and including the end of the URL matches |
| `VideoIds.FindVideoId` | supporting_functions.py:18-20 | a returned id has exactly 11 characters, all in `[0-9A-Za-z_-]`, and is the group of the leftmost matching start; nothing is returned exactly when no start matches |
| `VideoIds.ExtractVideoId` | supporting_functions.py:17-22 | success returns a well-formed id, group 1 of the leftmost matching start, and reports nothing; `None` is returned exactly when no start matches, and then exactly one error, the invalid-URL message, is reported |
| `VideoIds.FindVideoIdAtFirstMatch` | supporting_functions.py:18-20 | whenever `p` is the leftmost matching start, the result is the group of the match at `p` (with `FindVideoId`'s contract this pins the result down completely) |
| `VideoIds.FoundIdFollowsMarker` | supporting_functions.py:18-20 | a returned id occurs in the URL immediately after the two characters `v=` or a single `/` |
| `VideoIds.ExtensionKeepsMatch` | supporting_functions.py:18 | a match survives any extension of the URL and keeps its group, and `v=` still takes priority over `/` |
| `VideoIds.AppendKeepsVideoId` | supporting_functions.py:18 | the trailing `.*` never causes rejection: appending any text (more id characters, `&` parameters, anything) to a URL that yields an id yields the same id |
| `VideoIds.QueryFormFirstMatch` | supporting_functions.py:18-20 | for a `v=` at `p` followed by 11 id characters, the match at `p` is the leftmost one if and only if no start in the text up to that `v` matches |
| `VideoIds.PathFormFirstMatch` | supporting_functions.py:18-20 | for a `/` at `p` followed by 11 id characters, the match at `p` is the leftmost one if and only if no start in the text before that `/` matches |
| `VideoIds.QueryFormAt` | supporting_functions.py:18-20 | a `v=` at `p` followed by 11 id characters is returned when no start in the text up to that `v` matches, whatever follows |
| `VideoIds.PathFormAt` | supporting_functions.py:18-20 | a `/` at `p` followed by 11 id characters is returned when no start before that `/` matches, whatever follows |
| `VideoIds.QueryFormId` | supporting_functions.py:18-20 | every URL `pre + id + rest` with `pre` ending in `v=` yields `id` when no start in `pre` up to the `v` matches |
| `VideoIds.PathFormId` | supporting_functions.py:18-20 | every URL `pre + id + rest` with `pre` ending in `/` yields `id` when no start before that `/` matches |
| `VideoIds.PlainNoMatch` | supporting_functions.py:18 | a start holding neither `v` nor `/` never matches |
| `VideoIds.WatchUrlId` | supporting_functions.py:17-22 | `https://www.youtube.com/watch?v=<id><rest>` yields `<id>` and reports nothing, for every well-formed id and any rest; the slashes of `https://` are blocked by a non-id character within 11 places |
| `VideoIds.ShortUrlId` | supporting_functions.py:18-20 | `https://youtu.be/<id><rest>` yields `<id>`, for every well-formed id and any rest |
| `VideoIds.LongRunTruncated` | supporting_functions.py:18-20 | a URL that starts with `/` followed by a run of more than 11 id characters yields only the first 11 of them, whatever follows the run |
| `VideoIds.PathSegmentShadowsQueryId` | supporting_functions.py:18-20 | the leftmost match wins: an attribution link yields the path segment `attribution`, not the id after `v=` |
| `VideoIds.InvalidUrlsRejected` | supporting_functions.py:19-22 | `not a url` and the empty string return nothing and report exactly the invalid-URL message once |
| `Transcripts.Texts` | supporting_functions.py:29 | the comprehension keeps one text per fragment, in fragment order |
| `Transcripts.Join` | supporting_functions.py:29 | the joined transcript is as long as the texts together plus one separator between each pair: `n - 1` for `n >= 1` texts, and the empty string for none |
| `Transcripts.GetTranscript` | supporting_functions.py:25-33 | a transcript is returned exactly when the fetch for `(video_id, [language])` succeeds, and it is the space-join of the fragment texts with nothing reported; a failing fetch returns nothing and reports exactly `Error fetching video: <description>` |
| `Transcripts.JoinLayout` | supporting_functions.py:29 | each text appears unchanged at its offset (the texts before it plus one separator each), followed by exactly one space unless it is last; nothing is trimmed, dropped or reordered |
| `Transcripts.JoinAppend` | supporting_functions.py:29 | joining is a left fold: for one or more texts, one more text adds a single space and that text at the end (for no texts, joining one text gives that text alone) |
| `Transcripts.JoinSplitRoundTrip` | supporting_functions.py:29 | for one or more texts of which none holds a space, splitting the transcript on single spaces (Python's `split(" ")`) gives back exactly the texts, empty ones included |
| `Transcripts.HelloWorldTranscript` | supporting_functions.py:27-31 | a service returning fragments `Hello` and `world` yields the transcript `Hello world` with nothing reported |
| `Transcripts.FailedFetchReported` | supporting_functions.py:32-33 | a service that raises yields no transcript and the single message `Error fetching video: No transcripts were found` |

## Left out

- Streamlit (supporting_functions.py:3, 21, 33, 60, 82): how messages are shown on screen is not modelled. Only the list of reported messages is.
- API-key lookup and the environment write (supporting_functions.py:12-14): process configuration with no logic.
- The transcript service (supporting_functions.py:26, 28): a network call. It becomes the `fetch` parameter. Its fragments carry only their text; the start and duration fields are never read.
- `time.sleep(10)` after a successful fetch (supporting_functions.py:30): the model has no clock, so the post-fetch delay is not represented.
- Exceptions outside Python's `Exception` hierarchy (such as `KeyboardInterrupt`) escape `get_transcript` instead of being reported. The model has only the caught path.
- The trailing `.*` of the pattern decides only where the match ends, and the code never reads that. The model therefore leaves out its newline-stopping detail.
- The language-model client and the three prompt stages (supporting_functions.py:35-88): remote model calls with no checkable output; the prompt stages are not modelled.
- The text splitter, embeddings and vector store imports (supporting_functions.py:7-9): nothing in the file uses them.

=== FILE: outcomes.dfy ===
/** Result shapes shared by the two operations of supporting_functions.py. */
module Outcomes {

  /** A value or its absence (Python's `None`). */
  datatype Option<+T> = None | Some(value: T)

  /** What a call hands back to the UI: the Python return value together with the
      messages the call reported through the user-facing error channel, in order. */
  datatype Reported<+T> = Reported(value: Option<T>, errors: seq<string>)
}

=== FILE: transcript.dfy ===
/** The transcript step of `get_transcript`: the fetched caption fragments are
    joined into one text with single spaces, and a failing fetch is reported
    instead of raised. The transcript service itself is a parameter. */
module Transcripts {
  import opened Outcomes

  /** Prefix of the message reported when the fetch raises. */
  const FetchErrorPrefix: string := "Error fetching video: "

  /** One caption unit returned by the transcript service; only its text is used. */
  datatype Fragment = Fragment(text: string)

  /** What the service's fetch produced: the fragments in caption order, or the
      description of the exception it raised. */
  datatype Fetched = Fetched(fragments: seq<Fragment>) | FetchFailed(description: string)

  /** The list comprehension `[i.text for i in transcript]`. */
  function Texts(fragments: seq<Fragment>): (r: seq<string>)
    ensures |r| == |fragments|
    ensures forall i :: 0 <= i < |r| ==> r[i] == fragments[i].text
  {
    if fragments == [] then [] else [fragments[0].text] + Texts(fragments[1..])
  }

  /** Sum of the lengths of the texts. */
  function TotalLength(texts: seq<string>): nat {
    if texts == [] then 0 else |texts[0]| + TotalLength(texts[1..])
  }

  /** Number of separators between `n` joined texts. */
  function Separators(n: nat): nat {
    if n == 0 then 0 else n - 1
  }

  /** `" ".join(texts)`. */
  function Join(texts: seq<string>): (r: string)
    ensures |r| == TotalLength(texts) + Separators(|texts|)
  {
    if texts == [] then ""
    else if |texts| == 1 then texts[0]
    else texts[0] + " " + Join(texts[1..])
  }

  /** Where the `i`-th text starts in the joined transcript: the texts before it
      and one separator after each of them. */
  function Offset(texts: seq<string>, i: nat): nat
    requires i <= |texts|
  {
    TotalLength(texts[..i]) + i
  }

  /** `get_transcript(video_id, language)`, with the service call
      `fetch(video_id, languages=[language])` passed in as `fetch`. */
  function GetTranscript(videoId: string, language: string, fetch: (string, seq<string>) -> Fetched): (r: Reported<string>)
    ensures r.value.Some? <==> fetch(videoId, [language]).Fetched?
    ensures fetch(videoId, [language]).Fetched? ==>
              r.errors == [] && r.value.value == Join(Texts(fetch(videoId, [language]).fragments))
    ensures fetch(videoId, [language]).FetchFailed? ==>
              r.errors == [FetchErrorPrefix + fetch(videoId, [language]).description]
  {
    match fetch(videoId, [language])
    case Fetched(fragments) => Reported(Some(Join(Texts(fragments))), [])
    case FetchFailed(description) => Reported(None, [FetchErrorPrefix + description])
  }

  // ---------------------------------------------------------------------------
  // Properties of the join

  /** Every text appears unchanged at its offset, followed by exactly one space
      unless it is the last: nothing is trimmed, dropped or reordered. */
  lemma {:induction false} JoinLayout(texts: seq<string>, i: nat)
    requires i < |texts|
    ensures Offset(texts, i) + |texts[i]| <= |Join(texts)|
    ensures Join(texts)[Offset(texts, i)..Offset(texts, i) + |texts[i]|] == texts[i]
    ensures i + 1 < |texts| ==>
              Offset(texts, i) + |texts[i]| < |Join(texts)| && Join(texts)[Offset(texts, i) + |texts[i]|] == ' '
    decreases |texts|
  {
    if i == 0 {
      assert texts[..0] == [];
      if |texts| > 1 {
        JoinOfSeveral(texts);
      }
    } else {
      var tail := texts[1..];
      JoinLayout(tail, i - 1);
      OffsetOfTail(texts, i);
      JoinOfSeveral(texts);
      SliceAfterHead(texts[0] + " ", Join(tail), Offset(tail, i - 1), |tail[i - 1]|);
    }
  }

  /** Two or more texts join as the first, a space, and the join of the rest. */
  lemma JoinOfSeveral(texts: seq<string>)
    requires |texts| >= 2
    ensures Join(texts) == (texts[0] + " ") + Join(texts[1..])
  {
  }

  /** Offsets in a list are one text and one separator further than in its tail. */
  lemma OffsetOfTail(texts: seq<string>, i: nat)
    requires 1 <= i <= |texts|
    ensures Offset(texts, i) == |texts[0]| + 1 + Offset(texts[1..], i - 1)
  {
    assert texts[..i][1..] == texts[1..][..i - 1];
  }

  /** A slice of the part after a head is the same slice shifted by the head's length. */
  lemma SliceAfterHead(head: string, s: string, o: nat, n: nat)
    requires o + n <= |s|
    ensures (head + s)[|head| + o..|head| + o + n] == s[o..o + n]
    ensures o + n < |s| ==> (head + s)[|head| + o + n] == s[o + n]
  {
  }

  /** Joining is a left fold: appending a text to at least one text adds one
      space and that text at the end. */
  lemma {:induction false} JoinAppend(texts: seq<string>, t: string)
    requires |texts| >= 1
    ensures Join(texts + [t]) == Join(texts) + " " + t
    decreases |texts|
  {
    if |texts| == 1 {
      assert texts + [t] == [texts[0], t];
    } else {
      assert (texts + [t])[1..] == texts[1..] + [t];
      JoinAppend(texts[1..], t);
    }
  }

  /** Python's `s.split(" ")`: the pieces between single spaces, empty ones kept. */
  function Split(s: string): (r: seq<string>)
    ensures |r| >= 1
    decreases |s|
  {
    if s == [] then [""]
    else
      var rest := Split(s[1..]);
      if s[0] == ' ' then [""] + rest else [[s[0]] + rest[0]] + rest[1..]
  }

  /** Splitting a text that holds no space gives that text back. */
  lemma {:induction false} SplitWithoutSpace(t: string)
    requires ' ' !in t
    ensures Split(t) == [t]
    decreases |t|
  {
    if t != [] {
      SplitWithoutSpace(t[1..]);
      assert [t[0]] + t[1..] == t;
    }
  }

  /** Splitting stops at the first space. */
  lemma {:induction false} SplitAtFirstSpace(t: string, u: string)
    requires ' ' !in t
    ensures Split(t + " " + u) == [t] + Split(u)
    decreases |t|
  {
    var s := t + " " + u;
    if t == [] {
      assert s[1..] == u;
    } else {
      assert s[1..] == t[1..] + " " + u;
      SplitAtFirstSpace(t[1..], u);
      assert [t[0]] + t[1..] == t;
    }
  }

  /** When no fragment text holds a space, splitting the transcript on spaces
      gives back exactly the fragment texts, empty ones included. */
  lemma {:induction false} JoinSplitRoundTrip(texts: seq<string>)
    requires |texts| >= 1
    requires forall i :: 0 <= i < |texts| ==> ' ' !in texts[i]
    ensures Split(Join(texts)) == texts
    decreases |texts|
  {
    if |texts| == 1 {
      SplitWithoutSpace(texts[0]);
    } else {
      JoinSplitRoundTrip(texts[1..]);
      SplitAtFirstSpace(texts[0], Join(texts[1..]));
      assert [texts[0]] + texts[1..] == texts;
    }
  }

  // ---------------------------------------------------------------------------
  // Concrete fetches

  /** A stub service that returns two fragments. */
  function HelloWorldService(videoId: string, languages: seq<string>): Fetched {
    Fetched([Fragment("Hello"), Fragment("world")])
  }

  /** A stub service that raises. */
  function NoCaptionsService(videoId: string, languages: seq<string>): Fetched {
    FetchFailed("No transcripts were found")
  }

  /** Two fragments from a stubbed service become one transcript. */
  lemma HelloWorldTranscript()
    ensures GetTranscript("dQw4w9WgXcQ", "en", HelloWorldService) == Reported(Some("Hello world"), [])
  {
    assert Texts([Fragment("Hello"), Fragment("world")]) == ["Hello", "world"];
    assert Join(["Hello", "world"]) == "Hello" + " " + "world" == "Hello world";
  }

  /** A service that raises yields no transcript and one reported message. */
  lemma FailedFetchReported()
    ensures GetTranscript("dQw4w9WgXcQ", "xx", NoCaptionsService)
         == Reported(None, ["Error fetching video: No transcripts were found"])
  {
    assert FetchErrorPrefix + "No transcripts were found" == "Error fetching video: No transcripts were found";
  }
}

=== FILE: video_id.dfy ===
/** `extract_video_id`: the regular-expression search
    `(?:v=|/)([0-9A-Za-z_-]{11}).*` over a URL, returning the captured group. */
module VideoIds {
  import opened Outcomes

  /** Length of the captured group `{11}`. */
  const IdLength: nat := 11

  /** Message reported when no position of the URL matches. */
  const InvalidUrlMessage: string := "Invalid YouTube URL. Please enter a valid video link."

  /** The character class `[0-9A-Za-z_-]`. */
  predicate IsIdChar(c: char) {
    || '0' <= c <= '9'
    || 'A' <= c <= 'Z'
    || 'a' <= c <= 'z'
    || c == '_'
    || c == '-'
  }

  /** A well-formed video id: exactly 11 characters of the class. */
  ghost predicate IsVideoId(s: string) {
    |s| == IdLength && forall k :: 0 <= k < |s| ==> IsIdChar(s[k])
  }

  // ---------------------------------------------------------------------------
  // Declarative reading of the pattern

  /** `url[j..j+11]` lies inside the URL and consists of id characters. */
  ghost predicate IdRunAt(url: string, j: int) {
    0 <= j && j + IdLength <= |url| && forall k :: j <= k < j + IdLength ==> IsIdChar(url[k])
  }

  /** The first alternative `v=` matches at `i`, followed by the group. */
  ghost predicate VMatchAt(url: string, i: int) {
    0 <= i && i + 2 <= |url| && url[i..i + 2] == "v=" && IdRunAt(url, i + 2)
  }

  /** The second alternative `/` matches at `i`, followed by the group. */
  ghost predicate SlashMatchAt(url: string, i: int) {
    0 <= i < |url| && url[i] == '/' && IdRunAt(url, i + 1)
  }

  /** The whole pattern matches when the search starts at `i` (the trailing
      `.*` may match the empty string, so it never makes a start fail). */
  ghost predicate MatchAt(url: string, i: int) {
    VMatchAt(url, i) || SlashMatchAt(url, i)
  }

  /** Where group 1 starts for a match at `i`; `v=` is tried before `/`. */
  ghost function GroupStart(url: string, i: int): nat
    requires MatchAt(url, i)
  {
    if VMatchAt(url, i) then i + 2 else i + 1
  }

  /** Group 1 of a match at `i`. */
  ghost function Group(url: string, i: int): string
    requires MatchAt(url, i)
  {
    url[GroupStart(url, i)..GroupStart(url, i) + IdLength]
  }

  /** `i` is the leftmost start at which the pattern matches. */
  ghost predicate FirstMatch(url: string, i: int) {
    MatchAt(url, i) && forall q :: 0 <= q < i ==> !MatchAt(url, q)
  }

  /** No start position matches. */
  ghost predicate NoMatch(url: string) {
    forall q :: 0 <= q <= |url| ==> !MatchAt(url, q)
  }

  /** A position `j` directly preceded by `v=` or by `/`. */
  ghost predicate AfterMarker(url: string, j: int) {
    || (2 <= j <= |url| && url[j - 2..j] == "v=")
    || (1 <= j <= |url| && url[j - 1] == '/')
  }

  // ---------------------------------------------------------------------------
  // The search, as a scan over start positions

  /** `[0-9A-Za-z_-]{n}` matched at position `j`. */
  function IdCharsAt(url: string, j: nat, n: nat): (ok: bool)
    ensures ok <==> j + n <= |url| && forall k :: j <= k < j + n ==> IsIdChar(url[k])
    decreases n
  {
    if n == 0 then j <= |url|
    else j < |url| && IsIdChar(url[j]) && IdCharsAt(url, j + 1, n - 1)
  }

  /** The pattern tried at start `i`: the alternative `v=` first, then `/`;
      on success, the start of group 1. */
  function TryAt(url: string, i: nat): (r: Option<nat>)
    ensures r.Some? <==> MatchAt(url, i)
    ensures r.Some? ==> r.value == GroupStart(url, i)
  {
    if i + 2 <= |url| && url[i] == 'v' && url[i + 1] == '=' && IdCharsAt(url, i + 2, IdLength) then
      assert url[i..i + 2] == "v=";
      Some(i + 2)
    else if i < |url| && url[i] == '/' && IdCharsAt(url, i + 1, IdLength) then
      Some(i + 1)
    else
      None
  }

  /** A successful search: where the match starts and where group 1 starts. */
  datatype Match = Match(start: nat, groupStart: nat)

  /** `re.search` from start position `i`: tries `i`, `i + 1`, ... up to and
      including `|url|`, and stops at the first start that matches. */
  function SearchFrom(url: string, i: nat): (r: Option<Match>)
    requires i <= |url|
    ensures r.Some? ==> i <= r.value.start && MatchAt(url, r.value.start)
    ensures r.Some? ==> r.value.groupStart == GroupStart(url, r.value.start)
    ensures r.Some? ==> forall q :: i <= q < r.value.start ==> !MatchAt(url, q)
    ensures r.None? <==> forall q :: i <= q <= |url| ==> !MatchAt(url, q)
    decreases |url| - i
  {
    match TryAt(url, i)
    case Some(g) => Some(Match(i, g))
    case None => if i == |url| then None else SearchFrom(url, i + 1)
  }

  /** `re.search(...)` followed by `match.group(1)`, or `None`. */
  function FindVideoId(url: string): (r: Option<string>)
    ensures r.Some? ==> IsVideoId(r.value)
    ensures r.Some? ==> exists p :: FirstMatch(url, p) && r.value == Group(url, p)
    ensures r.None? <==> NoMatch(url)
  {
    match SearchFrom(url, 0)
    case None => None
    case Some(m) =>
      assert FirstMatch(url, m.start);
      Some(url[m.groupStart..m.groupStart + IdLength])
  }

  /** `extract_video_id`: the id, or `None` after reporting one error message. */
  function ExtractVideoId(url: string): (r: Reported<string>)
    ensures r.value.Some? ==> IsVideoId(r.value.value) && r.errors == []
    ensures r.value.Some? ==> exists p :: FirstMatch(url, p) && r.value.value == Group(url, p)
    ensures r.value.None? <==> NoMatch(url)
    ensures r.value.None? ==> r.errors == [InvalidUrlMessage]
  {
    match FindVideoId(url)
    case Some(id) => Reported(Some(id), [])
    case None => Reported(None, [InvalidUrlMessage])
  }

  // ---------------------------------------------------------------------------
  // Properties of the search

  /** The search returns the group of the leftmost matching start. */
  lemma FindVideoIdAtFirstMatch(url: string, p: int)
    requires FirstMatch(url, p)
    ensures FindVideoId(url) == Some(Group(url, p))
  {
    var m := SearchFrom(url, 0);
    assert m.Some? && m.value.start == p;
  }

  /** A returned id occurs in the URL right after `v=` or `/`. */
  lemma {:induction false} FoundIdFollowsMarker(url: string)
    requires FindVideoId(url).Some?
    ensures exists j :: AfterMarker(url, j) && j + IdLength <= |url| && url[j..j + IdLength] == FindVideoId(url).value
  {
    var p :| FirstMatch(url, p) && FindVideoId(url).value == Group(url, p);
    var j := GroupStart(url, p);
    assert AfterMarker(url, j);
  }

  /** The first alternative at `q` only reads `url[q..q+13]`. */
  lemma VMatchStable(u: string, w: string, q: int)
    requires |u| <= |w| && w[..|u|] == u
    requires 0 <= q && q + 2 + IdLength <= |u|
    ensures VMatchAt(w, q) <==> VMatchAt(u, q)
  {
    assert w[q..q + 2] == u[q..q + 2];
    assert forall k :: q + 2 <= k < q + 2 + IdLength ==> w[k] == u[k];
  }

  /** The second alternative at `q` only reads `url[q..q+12]`. */
  lemma SlashMatchStable(u: string, w: string, q: int)
    requires |u| <= |w| && w[..|u|] == u
    requires 0 <= q && q + 1 + IdLength <= |u|
    ensures SlashMatchAt(w, q) <==> SlashMatchAt(u, q)
  {
    assert w[q] == u[q];
    assert forall k :: q + 1 <= k < q + 1 + IdLength ==> w[k] == u[k];
  }

  /** A character outside the class inside the window of the first alternative blocks it. */
  lemma VMatchBlocked(w: string, q: int, b: int)
    requires 0 <= q && q + 2 <= b < q + 2 + IdLength && b < |w| && !IsIdChar(w[b])
    ensures !VMatchAt(w, q)
  {
  }

  /** A character outside the class inside the window of the second alternative blocks it. */
  lemma SlashMatchBlocked(w: string, q: int, b: int)
    requires 0 <= q && q + 1 <= b < q + 1 + IdLength && b < |w| && !IsIdChar(w[b])
    ensures !SlashMatchAt(w, q)
  {
  }

  /** A match at `p` survives any extension of the URL, with the same group. */
  lemma ExtensionKeepsMatch(u: string, w: string, p: int)
    requires |u| <= |w| && w[..|u|] == u
    requires MatchAt(u, p)
    ensures MatchAt(w, p) && GroupStart(w, p) == GroupStart(u, p) && Group(w, p) == Group(u, p)
  {
    if VMatchAt(u, p) {
      VMatchStable(u, w, p);
    } else {
      SlashMatchStable(u, w, p);
      assert w[p] == '/';
      assert !VMatchAt(w, p);
    }
    var g := GroupStart(u, p);
    assert forall k :: g <= k < g + IdLength ==> w[k] == u[k];
  }

  /** A start before a match does not begin to match when the URL is extended:
      everything it reads lies inside the URL already. */
  lemma ExtensionKeepsNoMatch(u: string, w: string, p: int, q: int)
    requires |u| <= |w| && w[..|u|] == u
    requires MatchAt(u, p) && 0 <= q < p && !MatchAt(u, q)
    ensures !MatchAt(w, q)
  {
    VMatchStable(u, w, q);
    SlashMatchStable(u, w, q);
  }

  /** Text after a match never makes the search reject or change its answer:
      appending anything to a URL that yields an id yields the same id. */
  lemma AppendKeepsVideoId(url: string, s: string)
    requires FindVideoId(url).Some?
    ensures FindVideoId(url + s) == FindVideoId(url)
  {
    var w := url + s;
    assert w[..|url|] == url;
    var p :| FirstMatch(url, p) && FindVideoId(url).value == Group(url, p);
    forall q | 0 <= q < p
      ensures !MatchAt(w, q)
    {
      ExtensionKeepsNoMatch(url, w, p, q);
    }
    ExtensionKeepsMatch(url, w, p);
    FindVideoIdAtFirstMatch(w, p);
  }

  /** `v=` form, exactly: when `v=` at `p` is followed by 11 id characters, the
      match at `p` is the leftmost one if and only if no start in the text up to
      that `v` already matches. */
  lemma {:induction false} QueryFormFirstMatch(url: string, p: nat)
    requires p + 2 + IdLength <= |url| && url[p] == 'v' && url[p + 1] == '='
    requires IdRunAt(url, p + 2)
    ensures FirstMatch(url, p) <==> NoMatch(url[..p + 1])
  {
    var u := url[..p + 1];
    forall q | 0 <= q < p
      ensures MatchAt(url, q) <==> MatchAt(u, q)
    {
      if q + 2 + IdLength <= |u| {
        VMatchStable(u, url, q);
      } else {
        VMatchBlocked(url, q, p + 1);
      }
      if q + 1 + IdLength <= |u| {
        SlashMatchStable(u, url, q);
      } else {
        SlashMatchBlocked(url, q, p + 1);
      }
    }
    assert url[p..p + 2] == "v=";
    assert VMatchAt(url, p);
    assert !MatchAt(u, p) && !MatchAt(u, p + 1);
  }

  /** `v=` form: when `v=` at `p` is followed by 11 id characters and no start in the
      text up to that `v` already matches, the search returns those 11 characters,
      whatever comes after them. */
  lemma QueryFormAt(url: string, p: nat)
    requires p + 2 + IdLength <= |url| && url[p] == 'v' && url[p + 1] == '='
    requires IdRunAt(url, p + 2)
    requires NoMatch(url[..p + 1])
    ensures FindVideoId(url) == Some(url[p + 2..p + 2 + IdLength])
  {
    QueryFormFirstMatch(url, p);
    FindVideoIdAtFirstMatch(url, p);
  }

  /** Path form, exactly: when `/` at `p` is followed by 11 id characters, the
      match at `p` is the leftmost one if and only if no start in the text before
      that `/` already matches. */
  lemma {:induction false} PathFormFirstMatch(url: string, p: nat)
    requires p + 1 + IdLength <= |url| && url[p] == '/'
    requires IdRunAt(url, p + 1)
    ensures FirstMatch(url, p) <==> NoMatch(url[..p])
  {
    var u := url[..p];
    forall q | 0 <= q < p
      ensures MatchAt(url, q) <==> MatchAt(u, q)
    {
      if q + 2 + IdLength <= p {
        VMatchStable(u, url, q);
      } else if q + 2 <= p {
        VMatchBlocked(url, q, p);
      } else {
        assert url[q + 1] == '/';
      }
      if q + 1 + IdLength <= p {
        SlashMatchStable(u, url, q);
      } else {
        SlashMatchBlocked(url, q, p);
      }
    }
    assert SlashMatchAt(url, p);
    assert !MatchAt(u, p);
  }

  /** Path form: when `/` at `p` is followed by 11 id characters and no start in the
      text before that `/` already matches, the search returns those 11 characters,
      whatever comes after them. */
  lemma PathFormAt(url: string, p: nat)
    requires p + 1 + IdLength <= |url| && url[p] == '/'
    requires IdRunAt(url, p + 1)
    requires NoMatch(url[..p])
    ensures FindVideoId(url) == Some(url[p + 1..p + 1 + IdLength])
  {
    PathFormFirstMatch(url, p);
    assert !VMatchAt(url, p);
    FindVideoIdAtFirstMatch(url, p);
  }

  /** Every URL `pre + id + rest` whose `pre` ends in `v=` yields `id`, provided no
      start in `pre` up to that `v` matches on its own. */
  lemma QueryFormId(pre: string, id: string, rest: string)
    requires |pre| >= 2 && pre[|pre| - 2] == 'v' && pre[|pre| - 1] == '='
    requires NoMatch(pre[..|pre| - 1])
    requires IsVideoId(id)
    ensures FindVideoId(pre + id + rest) == Some(id)
  {
    var url := pre + id + rest;
    var p := |pre| - 2;
    assert url[..p + 1] == pre[..|pre| - 1];
    assert url[p + 2..p + 2 + IdLength] == id;
    QueryFormAt(url, p);
  }

  /** Every URL `pre + id + rest` whose `pre` ends in `/` yields `id`, provided no
      start in `pre` before that `/` matches on its own. */
  lemma PathFormId(pre: string, id: string, rest: string)
    requires |pre| >= 1 && pre[|pre| - 1] == '/'
    requires NoMatch(pre[..|pre| - 1])
    requires IsVideoId(id)
    ensures FindVideoId(pre + id + rest) == Some(id)
  {
    var url := pre + id + rest;
    var p := |pre| - 1;
    assert url[..p] == pre[..|pre| - 1];
    assert url[p + 1..p + 1 + IdLength] == id;
    PathFormAt(url, p);
  }

  /** Starts at which neither `v` nor `/` stands never match. */
  lemma PlainNoMatch(u: string, lo: int, hi: int)
    requires 0 <= lo <= hi <= |u|
    requires forall k :: lo <= k < hi ==> u[k] != '/' && u[k] != 'v'
    ensures forall q :: lo <= q < hi ==> !MatchAt(u, q)
  {
    forall q | lo <= q < hi
      ensures !VMatchAt(u, q)
    {
      if q + 2 <= |u| {
        assert u[q..q + 2][0] == u[q];
      }
    }
  }

  // ---------------------------------------------------------------------------
  // Concrete URLs

  /** No start of the part of a watch URL before `=` matches: the two slashes of
      `https://` are blocked within 11 places, and the `/` before `watch` and the
      final `v` have fewer than 11 characters after them. */
  lemma WatchPrefixNoMatch()
    ensures NoMatch("https://www.youtube.com/watch?v")
  {
    var u := "https://www.youtube.com/watch?v";
    PlainNoMatch(u, 0, 6);
    SlashMatchBlocked(u, 6, 7);
    SlashMatchBlocked(u, 7, 11);
    PlainNoMatch(u, 8, 20);
  }

  /** A watch URL yields its id, whatever query parameters follow it, and reports nothing. */
  lemma WatchUrlId(id: string, rest: string)
    requires IsVideoId(id)
    ensures ExtractVideoId("https://www.youtube.com/watch?v=" + id + rest) == Reported(Some(id), [])
  {
    var pre := "https://www.youtube.com/watch?v=";
    WatchPrefixNoMatch();
    assert pre[..|pre| - 1] == "https://www.youtube.com/watch?v";
    QueryFormId(pre, id, rest);
  }

  /** No start of `https://youtu.be` matches. */
  lemma ShortHostNoMatch()
    ensures NoMatch("https://youtu.be")
  {
    PlainNoMatch("https://youtu.be", 0, 5);
  }

  /** A short link yields the path id, whatever query string follows it. */
  lemma ShortUrlId(id: string, rest: string)
    requires IsVideoId(id)
    ensures FindVideoId("https://youtu.be/" + id + rest) == Some(id)
  {
    var pre := "https://youtu.be/";
    ShortHostNoMatch();
    assert pre[..|pre| - 1] == "https://youtu.be";
    PathFormId(pre, id, rest);
  }

  /** A URL that starts with `/` and a run of more than 11 id characters yields
      the first 11 of them, whatever follows the run. */
  lemma LongRunTruncated(id: string, extra: string, rest: string)
    requires IsVideoId(id)
    requires |extra| >= 1 && forall k :: 0 <= k < |extra| ==> IsIdChar(extra[k])
    ensures FindVideoId("/" + id + extra + rest) == Some(id)
  {
    var pre := "/";
    assert pre[..|pre| - 1] == "";
    PathFormId(pre, id, extra + rest);
    assert pre + id + (extra + rest) == "/" + id + extra + rest;
  }

  /** No start of `https://www.youtube.com` matches. */
  lemma HostNoMatch()
    ensures NoMatch("https://www.youtube.com")
  {
    var u := "https://www.youtube.com";
    PlainNoMatch(u, 0, 6);
    SlashMatchBlocked(u, 6, 7);
    SlashMatchBlocked(u, 7, 11);
    PlainNoMatch(u, 8, 12);
  }

  /** The leftmost match wins even when it is not the video id: a path segment of
      11 or more id characters before `v=` shadows the id in the query string. */
  lemma PathSegmentShadowsQueryId(id: string)
    ensures FindVideoId("https://www.youtube.com/attribution_link?u=/watch?v=" + id) == Some("attribution")
  {
    var url := "https://www.youtube.com/attribution_link?u=/watch?v=" + id;
    HostNoMatch();
    AttributionLinkSegment(url, id);
    assert url[..23] == "https://www.youtube.com";
    PathFormAt(url, 23);
  }

  /** Where the path segment sits in an attribution link. */
  lemma AttributionLinkSegment(url: string, id: string)
    requires url == "https://www.youtube.com/attribution_link?u=/watch?v=" + id
    ensures url[24..35] == "attribution"
  {
    assert url[..35] == "https://www.youtube.com/attribution";
    assert url[24..35] == url[..35][24..];
  }

  /** Inputs without any match return nothing and report exactly one error. */
  lemma InvalidUrlsRejected()
    ensures ExtractVideoId("not a url") == Reported(None, [InvalidUrlMessage])
    ensures ExtractVideoId("") == Reported(None, [InvalidUrlMessage])
  {
  }
}
